=== FILE: README.md ===
# Personal schedule assistant: event store, query engine and reminder check

This project models the rule-bound core of a chat-style personal schedule
assistant. A language model turns a user's sentence into an event record. The
confirmed record is stored as a row of one `schedules` table. The core also
answers criteria queries over that table and runs an on-demand reminder check.

The model covers five parts:

- The **event store** is a class `EventStore`. Its `rows` field is a sequence in
  rowid order and its `nextId` field is the AUTOINCREMENT counter. Insert,
  update and delete reassign `rows`. The table functions `Find`, `Updated` and
  `Without` state what each of them changes.
- The **query engine** builds its WHERE clause one optional filter at a time.
  The filters are a keyword matched against name or location, a calendar day of
  `start_time`, and an exact reminder offset. The model proves that these
  conditions mean exactly the reference predicate `Matches`. With no active
  filter the query returns nothing. Otherwise it returns every matching row
  once, latest `start_time` first.
- The **reminder evaluator** scans the rows not yet reminded against one `now`.
  A row fires when its trigger time (start minus the offset, NULL read as 0)
  satisfies `trigger <= now < trigger + 60 s`. Fired rows are collected and
  flagged in the same pass. A fired row does not fire again until an edit
  clears its flag (`update_schedule` resets `is_reminded` to 0), a second scan
  at the same instant fires nothing, and a row whose start does not parse is
  skipped unchanged.
- The **full load** returns every row sorted by `start_time` descending.
- The **reply cleaning** runs before JSON decoding. It removes every "```json",
  then every "```", then the surrounding whitespace. The model proves three
  things about it: no fence survives, cleaning is idempotent, and a fenced
  JSON text that contains no backtick and has no whitespace at its ends is
  recovered exactly. The removal does not know JSON syntax, so it alters a
  reply whose JSON holds "```" or "```json", for instance inside a string value.

Timestamps are integers (seconds). `start_time` is kept as text, as the
column is. Reading it goes through parameters:

- `sqlTime` stands for SQLite's `datetime()`, used by the day filter.
- `parse` stands for `dateutil.parser.parse`, used by the reminder check.
- `now` is an argument.
- `decode` stands for the JSON decoder.

The order of `ORDER BY start_time DESC` on this text column is SQLite's BINARY
collation: code points compared one by one, with NULL lowest. The keyword
match is `LIKE '%k%'`: a substring test after folding the 26 ASCII capitals,
as SQLite's default `LIKE` does.

Three behaviours of the code are worth stating outright:

- `update_schedule` and `delete_schedule` report success even when no row has
  the id. The table is then unchanged.
- `save_schedule_to_db` returns `True`, not the new id. The new row's id is
  stated in `Save`'s contract instead.
- A NULL `reminder_minutes` counts as 0 in the reminder check. In the query,
  the filter `reminder_minutes = 0` does not match a NULL offset.

## Model

| member | source | states |
|---|---|---|
| `Table.IdsAscending` | backend/function1.py:115 | `INTEGER PRIMARY KEY AUTOINCREMENT`: rows are kept in strictly increasing rowid order, so no two rows share an id. |
| `Store.EventStore.Valid` | backend/function1.py:115 | The table invariant: ids ascend and were all taken from the counter, so ids are unique and the counter's next id is unused. |
| `Store.EventStore.constructor` | backend/function1.py:111-123 | A freshly initialised table is empty and valid, and ids start at 1. |
| `Store.EventStore.Save` | backend/function1.py:141-156 | Appends one row whose id was unused and equals the counter. The row carries the record's fields, the user's text and `is_reminded = 0`. Lookup by the new id finds exactly that row, and every other id finds what it found before. |
| `Store.EventStore.Update` | backend/function1.py:175-189 | Replaces all data fields of the row with that id and clears its flag. No other id changes. Reports success even when no row matched, and then the table is unchanged. |
| `Store.EventStore.Delete` | backend/function1.py:163-172 | Removes exactly the row with that id, so the table shrinks by one when the id is present. Every other id is unaffected. Reports success even when no row matched, and then the table is unchanged. The counter is kept, so the id is never reused. |
| `Store.EventStore.LoadAll` | backend/function1.py:131-134 | Returns every row, each once, sorted by `start_time` descending. |
| `Store.EventStore.QueryEvents` | backend/function1.py:196-253 | With no active filter the result is empty. Otherwise a row is returned iff it is stored and satisfies every active filter, the result is a permutation of the matching rows, and it is sorted by `start_time` descending. |
| `Store.EventStore.CheckReminders` | backend/function1.py:257-292 | The returned events are exactly the unreminded rows whose window holds `now`, in scan order. The new table is the old one with those rows' flags set and nothing else changed. A row whose start is NULL or does not parse is not returned and stays as it was. |
| `Text.LexLe` | backend/function1.py:134 | BINARY collation on text: a prefix sorts first, and otherwise the first differing code point decides. |
| `Text.LexLeTotal` | backend/function1.py:134 | Any two texts are comparable. |
| `Text.LexLeTransitive` | backend/function1.py:134 | The text order is transitive. |
| `Text.LexLeAntisymmetric` | backend/function1.py:134 | Two texts that each sort at or before the other are equal. |
| `Schedule.StartLe` | backend/function1.py:134 | The order on the `start_time` column: NULL sorts lowest, before every text, and texts compare by BINARY collation. |
| `Schedule.StartLeTotal` | backend/function1.py:134 | Any two start values are comparable. |
| `Schedule.StartLeTransitive` | backend/function1.py:134 | The start order is transitive. |
| `Schedule.StartLeAntisymmetric` | backend/function1.py:134 | Two start values that each sort at or before the other are equal, so the order is a total order. |
| `Schedule.SortDesc` | backend/function1.py:134 | `ORDER BY start_time DESC`: the output is sorted latest first, NULL last, and is a permutation of the input. |
| `Schedule.InsertDesc` | backend/function1.py:237 | Inserting into a descending sequence keeps it descending and adds exactly that row. |
| `Query.KeywordActive` | backend/function1.py:204 | The keyword gates on truthiness: a missing or empty keyword is no filter. |
| `Query.HasFilter` | backend/function1.py:204-229 | `if conditions:`. Any offset, 0 included, is a filter (`is not None`), and with no keyword, no date and no offset there is none. |
| `Text.FoldChar` | backend/function1.py:206 | SQLite's `LIKE` folds the 26 ASCII capitals to lower case and leaves every other character alone. |
| `Text.Fold` | backend/function1.py:206 | Folding a text folds each character and keeps the length. |
| `Text.ContainsFolded` | backend/function1.py:206 | An occurrence survives folding both texts, so a case-exact match is also a `LIKE` match. |
| `Query.LikeKeyword` | backend/function1.py:206 | `column LIKE '%k%'`: a NULL column never matches, an empty keyword matches every non-NULL column, and a column containing the keyword matches. |
| `Query.ColumnTime` | backend/function1.py:215-216 | `datetime(start_time)`: a NULL column reads as NULL, and a value read is SQLite's reading of the text. |
| `Query.Holds` | backend/function1.py:206-224 | One SQL fragment. A comparison with NULL is never true: a start SQLite cannot read fails both time bounds, and a NULL offset fails `reminder_minutes = ?`. |
| `Query.Where` | backend/function1.py:229-230 | The WHERE selection never adds rows, and with no conditions it keeps every row; `WhereIsMatching` says what it selects. |
| `Query.DayStart` | backend/function1.py:212-214 | The start of the day lies at or before the target and less than one day before it, and falls on a day boundary. |
| `Query.BuildConditions` | backend/function1.py:200-224 | The WHERE clause is empty iff no filter is active. Its AND-ed conditions hold for a row iff the row satisfies every active filter. |
| `Query.WhereIsMatching` | backend/function1.py:226-230 | Conditions that mean the criteria select exactly the rows that match them, in table order. |
| `Query.MatchingMembers` | backend/function1.py:204-224 | A row is selected iff it is stored and satisfies each active filter: keyword in name or location, start within the target day, equal offset. |
| `Query.EmptyKeywordIsNoFilter` | backend/function1.py:204-224 | An empty keyword filters nothing out. The offset filter applies when the offset is 0, and it excludes a NULL offset. |
| `Query.GymScenario` | backend/function1.py:204-208 | Keyword "gym" matches the event located at "City Gym" and not the "Standup" at the "Office". |
| `Reminder.OffsetMinutes` | backend/function1.py:271 | `int(reminder_minutes or 0)`: NULL and 0 both give 0, and any other offset is taken as is. |
| `Reminder.TriggerTime` | backend/function1.py:270-275 | The trigger instant is absent exactly when `start_time` is NULL or does not parse; otherwise it is the parsed start minus `60 * (reminder_minutes or 0)` seconds (stated through `FiresIffInWindow`). |
| `Reminder.Due` | backend/function1.py:280 | A row is due only when its trigger instant exists; `WindowIsOneMinute` and `FiresIffInWindow` state the half-open one-minute window. |
| `Reminder.WindowIsOneMinute` | backend/function1.py:277-280 | Two instants at which the same row is due lie less than one minute apart. |
| `Reminder.Pending` | backend/function1.py:264 | `SELECT ... WHERE is_reminded = 0` returns no more rows than stored; `PendingMembers` states which. |
| `Reminder.PendingMembers` | backend/function1.py:264 | A row is pending iff it is stored and its flag is clear. |
| `Reminder.Fire` | backend/function1.py:268-281 | The scan collects no more rows than it was given; `FireMembers` states which, and `CheckReminders` proves its loop computes it. |
| `Reminder.FireMembers` | backend/function1.py:268-281 | A scanned row is collected iff it is due at `now`. |
| `Reminder.Flag` | backend/function1.py:283 | Setting flags changes only the flag and only from 0 to 1, on exactly the rows whose id is listed. |
| `Reminder.FiresIffInWindow` | backend/function1.py:264-281 | A row fires iff it is stored, not reminded, its start parses, and `start - 60*(offset or 0) <= now < start - 60*(offset or 0) + 60`. |
| `Reminder.FiredRowsNeverFireAgain` | backend/function1.py:280-284 | In the table right after the flags are set, no fired row fires again, whatever the later `now` and however start times are read then; it fires again only after an edit clears its flag. |
| `Reminder.SecondScanFiresNothing` | backend/function1.py:280-284 | A second scan at the same instant, after the first scan's flags, fires nothing. |
| `Reminder.UnparsableRowUntouched` | backend/function1.py:269-288 | A row whose start does not parse does not fire and keeps its flag; the scan goes on with the others. |
| `Reminder.MeetingScenario` | backend/function1.py:273-280 | A meeting at 10:00 with a 20-minute offset fires at 09:40:30. It does not fire again in that minute after being flagged. A check at 09:41:30 fires nothing. |
| `Query.Matches` | backend/function1.py:204-224 | With no active filter every row matches. A row matching a day filter has a start that SQLite reads as a time, and a row matching an offset filter has a non-NULL offset. `MatchingMembers`, `BuildConditions` and `EmptyKeywordIsNoFilter` state the rest. |
| `Table.Find` | backend/function1.py:166 | Lookup by id returns a stored row with that id; `FindMissing` states when it finds nothing. |
| `Table.FindMissing` | backend/function1.py:166 | When the lookup finds nothing, no stored row has that id; with `Find`'s postcondition this is an iff. |
| `Table.Updated` | backend/function1.py:178-187 | The update keeps the table's length and every row's id; `UpdatedEffect` states what changes. |
| `Table.Without` | backend/function1.py:166 | The delete never adds rows; `WithoutMembers`, `WithoutEffect` and `WithoutKeepsOrder` state what it removes. |
| `Table.WithoutMembers` | backend/function1.py:166 | A row survives the delete iff it was stored under another id. |
| `Table.FindAppended` | backend/function1.py:144-154 | An inserted row with an unused id is found under that id, and other ids are unaffected. |
| `Table.UpdatedEffect` | backend/function1.py:178-187 | The updated id finds the new fields with the flag cleared. Other ids are unaffected. A missing id leaves the table unchanged. |
| `Table.WithoutEffect` | backend/function1.py:166 | The deleted id is no longer found. Other ids are unaffected. A missing id leaves the table unchanged. |
| `Table.WithoutKeepsOrder` | backend/function1.py:166 | Deleting keeps rowid order and removes one row exactly when the id is present. |
| `Fence.RemoveAll` | backend/function1.py:88 | `str.replace(pat, "")` never lengthens the text; `NoCodeFenceLeft`, `RemoveAbsent` and `KeepsPlainText` state what it removes. |
| `Fence.RemoveAbsent` | backend/function1.py:88 | Removing a pattern that does not occur changes nothing. |
| `Fence.KeepsPlainText` | backend/function1.py:88 | A backtick-free front of the text passes unchanged through the removal of a pattern that starts with a backtick, and the removal goes on in the rest. |
| `Fence.IsSpace` | backend/function1.py:88 | Python's `str.isspace` set: space, tab, newline and carriage return are in it, and the backtick is not. |
| `Fence.Strip` | backend/function1.py:88 | `str.strip()` never lengthens the text; `StripIsSlice` states that it drops exactly the whitespace at both ends. |
| `Fence.CleanReply` | backend/function1.py:88 | The cleaned reply is no longer than the reply; `CleanReplyHasNoFence`, `CleanReplyIdempotent` and `UnwrapFencedReply` state its properties. |
| `Fence.ExtractReply` | backend/function1.py:84-91 | No reply, or an empty one, extracts nothing. Any other reply extracts exactly the decoder's reading of the cleaned reply. |
| `Fence.NoCodeFenceLeft` | backend/function1.py:88 | After every "```" is removed, none remains. |
| `Fence.StripIsSlice` | backend/function1.py:88 | `strip()` returns a slice of its input that drops only whitespace and has no whitespace at either end. |
| `Fence.CleanReplyHasNoFence` | backend/function1.py:88 | The cleaned reply contains no code fence and has no whitespace at either end. |
| `Fence.CleanReplyIdempotent` | backend/function1.py:88 | Cleaning an already cleaned reply changes nothing. |
| `Fence.UnwrapFencedReply` | backend/function1.py:87-89 | A JSON text that contains no backtick and has no whitespace at its ends, wrapped in a "```json" fence with whitespace inside the fence, is cleaned back to exactly that text, and that text is what reaches the decoder. |
| `Fence.InnerFenceIsLost` | backend/function1.py:88 | A body holding "```" anywhere, inside a JSON string included, is not what a "```json" fence around it cleans to. |
| `Fence.InnerFenceExample` | backend/function1.py:88 | The JSON text `{"a":"```"}` in a "```json" fence is not recovered by the cleaning. |

## Left out

- The language-model client is not modelled: `ask_qwen`, `check_api_latency`, the HTTP call and the prompt built from the current time. Their only output that matters is the reply text, which `ExtractReply` takes as an optional argument.
- `json.loads` is the `decode` parameter. It is foreign code, and its failure is the `None` it returns.
- `dateutil.parser.parse`, SQLite's `datetime()` and `datetime.now()` are the `parse`, `sqlTime` and `now` parameters. Calendar arithmetic is reduced to "day = floor(seconds / 86400)", so local time and DST are not modelled. A timezone-aware start that cannot be compared with `now` raises in the source and is skipped there; here it is a `parse` result of `None`.
- Sub-second precision is not modelled. Timestamps are whole seconds.
- Storage failures are not modelled: connection errors, failed statements and their printing and re-raising. Connection handling and commits are left out too. The fallbacks on those errors are therefore absent: the query's empty list on a database error, the reminder check returning what it had collected when an error escapes the row loop, and the empty frame of the full load. In particular, when the flag `UPDATE` or its commit fails (backend/function1.py:283-284), the per-row handler at lines 286-288 catches the error. The row, already appended at line 281, is then returned without its flag set, and a later check in the same minute fires it again; the model always sets the flag together with the collection.
- Query.MatchingMembers: `%` and `_` inside the keyword act as `LIKE` wildcards in the source. Here they are literal characters.
- Criteria and records are typed here. In the source, `criteria["start_time"].date()` (backend/function1.py:212-213) raises `AttributeError` when the start is not a `datetime`. The `data_dict.get` calls (lines 147-152 and 180-185) raise it when the decoded JSON is not an object. Those raising paths are not modelled, because the types here exclude such values.
- SQLite type affinity is not modelled: a `reminder_minutes` given as the text "20" is stored as 20 there. Records here hold the offset already as an optional integer.
- Store.EventStore.QueryEvents and Store.EventStore.LoadAll fix one order among rows with equal `start_time`. SQLite leaves that order unspecified, so the contracts state only sortedness and contents.
- The conversion of rows to dictionaries or a data frame is not modelled. Rows are returned as values.
- The debug `print` lines are not modelled.
- The Streamlit interface is not part of this model: `render_api_status_sidebar`, `show_result`, `get_schedule_dict`, `clear_input`, `show_error` and all of `frontend1.py`. It only displays results and asks for confirmation.

=== FILE: fence.dfy ===
/** Cleaning the language model's reply before it is decoded as JSON: every
    "```json" is removed, then every "```", then surrounding whitespace. */
module Fence {

  import opened Wrappers
  import opened Text
  import opened Schedule

  const Backtick: char := '`'
  const CodeFence: string := "```"
  const JsonFence: string := "```json"

  /** `s.replace(pat, "")`: occurrences are found left to right and do not overlap. */
  function RemoveAll(s: string, pat: string): (r: string)
    requires pat != []
    ensures |r| <= |s|
    decreases |s|
  {
    if s == [] then []
    else if IsPrefix(pat, s) then RemoveAll(s[|pat|..], pat)
    else [s[0]] + RemoveAll(s[1..], pat)
  }

  /** Python's `str.isspace` on one character. */
  predicate IsSpace(c: char)
    ensures c == ' ' || c == '\t' || c == '\n' || c == '\r' ==> IsSpace(c)
    ensures IsSpace(c) ==> c != Backtick
  {
    || '\U{9}' <= c <= '\U{D}'
    || '\U{1C}' <= c <= '\U{20}'
    || c == '\U{85}' || c == '\U{A0}' || c == '\U{1680}'
    || '\U{2000}' <= c <= '\U{200A}'
    || c == '\U{2028}' || c == '\U{2029}' || c == '\U{202F}' || c == '\U{205F}' || c == '\U{3000}'
  }

  predicate AllSpace(s: string)
  {
    forall i :: 0 <= i < |s| ==> IsSpace(s[i])
  }

  function StripLeft(s: string): (r: string)
    ensures |r| <= |s|
  {
    if s != [] && IsSpace(s[0]) then StripLeft(s[1..]) else s
  }

  function StripRight(s: string): (r: string)
    ensures |r| <= |s|
  {
    if s != [] && IsSpace(s[|s| - 1]) then StripRight(s[..|s| - 1]) else s
  }

  /** `str.strip()`: neither end of the result is whitespace. */
  function Strip(s: string): (r: string)
    ensures |r| <= |s|
  {
    StripRight(StripLeft(s))
  }

  /** `content.replace("```json", "").replace("```", "").strip()` */
  function CleanReply(content: string): (r: string)
    ensures |r| <= |content|
  {
    Strip(RemoveAll(RemoveAll(content, JsonFence), CodeFence))
  }

  /** The part of `extract_info_with_qwen` after the service call: no reply, or
      an empty one, extracts nothing; otherwise the cleaned reply goes to the
      JSON decoder, whose failure is "nothing" too. */
  function ExtractReply(content: Option<string>, decode: string -> Option<Record>): (r: Option<Record>)
    ensures content.None? || content.value == [] ==> r.None?
    ensures r.Some? ==> content.Some? && decode(CleanReply(content.value)) == r
    ensures content.Some? && content.value != [] ==> r == decode(CleanReply(content.value))
  {
    if content.Some? && content.value != [] then decode(CleanReply(content.value)) else None
  }

  lemma {:induction false} StripLeftIsSuffix(s: string) returns (lo: nat)
    ensures lo <= |s| && StripLeft(s) == s[lo..]
    ensures AllSpace(s[..lo])
    ensures StripLeft(s) == [] || !IsSpace(StripLeft(s)[0])
  {
    if s != [] && IsSpace(s[0]) {
      var k := StripLeftIsSuffix(s[1..]);
      lo := k + 1;
      assert s[lo..] == s[1..][k..];
      forall i | 0 <= i < lo ensures IsSpace(s[..lo][i]) {
        if i > 0 {
          assert s[..lo][i] == s[1..][..k][i - 1];
        }
      }
    } else {
      lo := 0;
    }
  }

  lemma {:induction false} StripRightIsPrefix(s: string) returns (hi: nat)
    ensures hi <= |s| && StripRight(s) == s[..hi]
    ensures AllSpace(s[hi..])
    ensures StripRight(s) == [] || !IsSpace(StripRight(s)[|StripRight(s)| - 1])
  {
    if s != [] && IsSpace(s[|s| - 1]) {
      var front := s[..|s| - 1];
      hi := StripRightIsPrefix(front);
      assert s[hi..] == front[hi..] + [s[|s| - 1]];
      assert s[..hi] == front[..hi];
    } else {
      hi := |s|;
    }
  }

  /** The stripped text is the input with whitespace, and only whitespace,
      removed from both ends, and it has no whitespace at either end. */
  lemma StripIsSlice(s: string) returns (lo: nat, hi: nat)
    ensures lo <= hi <= |s| && Strip(s) == s[lo..hi]
    ensures AllSpace(s[..lo]) && AllSpace(s[hi..])
    ensures Strip(s) == [] || (!IsSpace(Strip(s)[0]) && !IsSpace(Strip(s)[|Strip(s)| - 1]))
  {
    lo := StripLeftIsSuffix(s);
    var left := StripLeft(s);
    var h := StripRightIsPrefix(left);
    hi := lo + h;
    assert s[lo..][..h] == s[lo..hi];
    assert s[hi..] == s[lo..][h..];
    if Strip(s) != [] {
      assert Strip(s)[0] == left[0];
    }
  }

  /** A text whose first character is not a backtick keeps that character first
      when fences are removed from it. */
  lemma KeepsFirst(s: string, pat: string)
    requires pat != [] && pat[0] == Backtick
    requires s != [] && s[0] != Backtick
    ensures RemoveAll(s, pat) != [] && RemoveAll(s, pat)[0] == s[0]
  {
  }

  /** After every "```" is removed, none is left: removing one can never join
      backticks on its two sides into a new one. */
  lemma {:induction false} NoCodeFenceLeft(s: string)
    ensures !Contains(RemoveAll(s, CodeFence), CodeFence)
    decreases |s|
  {
    if s == [] {
    } else if IsPrefix(CodeFence, s) {
      NoCodeFenceLeft(s[3..]);
    } else {
      var rest := RemoveAll(s[1..], CodeFence);
      NoCodeFenceLeft(s[1..]);
      assert RemoveAll(s, CodeFence) == [s[0]] + rest;
      assert ([s[0]] + rest)[1..] == rest;
      if s[0] == Backtick && |s| >= 2 {
        if s[1] != Backtick {
          KeepsFirst(s[1..], CodeFence);
        } else {
          assert !IsPrefix(CodeFence, s[1..]);
          assert rest == [s[1]] + RemoveAll(s[2..], CodeFence);
          if |s| >= 3 {
            assert s[2] != Backtick;
            KeepsFirst(s[2..], CodeFence);
          }
        }
      }
    }
  }

  /** Containing a text means containing each of its prefixes. */
  lemma {:induction false} ContainsPrefixOf(s: string, p: string, q: string)
    requires IsPrefix(p, q) && Contains(s, q)
    ensures Contains(s, p)
    decreases |s|
  {
    if !IsPrefix(q, s) {
      ContainsPrefixOf(s[1..], p, q);
    } else {
      assert s[..|p|] == q[..|p|];
    }
  }

  /** Removing a pattern that does not occur changes nothing. */
  lemma {:induction false} RemoveAbsent(s: string, pat: string)
    requires pat != [] && !Contains(s, pat)
    ensures RemoveAll(s, pat) == s
    decreases |s|
  {
    if s != [] {
      RemoveAbsent(s[1..], pat);
    }
  }

  /** The cleaned reply holds no code fence and starts and ends with a
      non-whitespace character (or is empty). */
  lemma CleanReplyHasNoFence(content: string)
    ensures !Contains(CleanReply(content), CodeFence)
    ensures var r := CleanReply(content); r == [] || (!IsSpace(r[0]) && !IsSpace(r[|r| - 1]))
  {
    var removed := RemoveAll(RemoveAll(content, JsonFence), CodeFence);
    NoCodeFenceLeft(RemoveAll(content, JsonFence));
    var lo, hi := StripIsSlice(removed);
    if Contains(CleanReply(content), CodeFence) {
      ContainsSlice(removed, CodeFence, lo, hi);
    }
  }

  /** Cleaning a cleaned reply changes nothing. */
  lemma CleanReplyIdempotent(content: string)
    ensures CleanReply(CleanReply(content)) == CleanReply(content)
  {
    var once := CleanReply(content);
    CleanReplyHasNoFence(content);
    if Contains(once, JsonFence) {
      ContainsPrefixOf(once, CodeFence, JsonFence);
    }
    RemoveAbsent(once, JsonFence);
    RemoveAbsent(once, CodeFence);
    if once != [] {
      assert StripLeft(once) == once;
      assert StripRight(once) == once;
    }
  }

  /** A front without backticks cannot hold or start a fence, so it passes
      through the removal unchanged. */
  lemma {:induction false} KeepsPlainText(m: string, y: string, pat: string)
    requires pat != [] && pat[0] == Backtick
    requires forall i :: 0 <= i < |m| ==> m[i] != Backtick
    ensures RemoveAll(m + y, pat) == m + RemoveAll(y, pat)
    decreases |m|
  {
    if m != [] {
      var s := m + y;
      assert s[0] == m[0] != Backtick;
      assert !IsPrefix(pat, s) by {
        if |pat| <= |s| {
          assert s[..|pat|][0] == s[0];
        }
      }
      assert RemoveAll(s, pat) == [s[0]] + RemoveAll(s[1..], pat);
      assert s[1..] == m[1..] + y;
      KeepsPlainText(m[1..], y, pat);
      assert m == [m[0]] + m[1..];
    } else {
      assert m + y == y;
    }
  }

  lemma {:induction false} StripLeftSkipsSpace(w: string, t: string)
    requires AllSpace(w)
    ensures StripLeft(w + t) == StripLeft(t)
    decreases |w|
  {
    if w != [] {
      assert (w + t)[1..] == w[1..] + t;
      StripLeftSkipsSpace(w[1..], t);
    } else {
      assert w + t == t;
    }
  }

  lemma {:induction false} StripRightSkipsSpace(t: string, w: string)
    requires AllSpace(w)
    ensures StripRight(t + w) == StripRight(t)
    decreases |w|
  {
    if w != [] {
      assert (t + w)[..|t + w| - 1] == t + w[..|w| - 1];
      StripRightSkipsSpace(t, w[..|w| - 1]);
    } else {
      assert t + w == t;
    }
  }

  lemma PaddingHasNoBacktick(w1: string, body: string, w2: string)
    requires AllSpace(w1) && AllSpace(w2)
    requires forall i :: 0 <= i < |body| ==> body[i] != Backtick
    ensures forall i :: 0 <= i < |w1 + body + w2| ==> (w1 + body + w2)[i] != Backtick
  {
    var m := w1 + body + w2;
    forall i | 0 <= i < |m| ensures m[i] != Backtick {
      if i < |w1| {
        assert m[i] == w1[i];
      } else if i < |w1| + |body| {
        assert m[i] == body[i - |w1|];
      } else {
        assert m[i] == w2[i - |w1| - |body|];
      }
    }
  }

  /** Both removals strip the opening "```json" and the closing "```" from a
      text without backticks, and nothing else. */
  lemma FencesRemoved(m: string)
    requires forall i :: 0 <= i < |m| ==> m[i] != Backtick
    ensures RemoveAll(RemoveAll(JsonFence + m + CodeFence, JsonFence), CodeFence) == m
  {
    OpeningFenceRemoved(m);
    ClosingFenceRemoved(m);
  }

  /** Removing "```json" from the fenced text leaves the body and the closing
      fence. */
  lemma OpeningFenceRemoved(m: string)
    requires forall i :: 0 <= i < |m| ==> m[i] != Backtick
    ensures RemoveAll(JsonFence + m + CodeFence, JsonFence) == m + CodeFence
  {
    assert JsonFence + m + CodeFence == JsonFence + (m + CodeFence);
    LeadingMatchRemoved(JsonFence, m + CodeFence);
    KeepsPlainText(m, CodeFence, JsonFence);
    ShortFenceKept();
  }

  /** An occurrence at the very start is dropped and the scan goes on after it. */
  lemma LeadingMatchRemoved(pat: string, t: string)
    requires pat != []
    ensures RemoveAll(pat + t, pat) == RemoveAll(t, pat)
  {
    assert (pat + t)[..|pat|] == pat;
    assert (pat + t)[|pat|..] == t;
  }

  /** "```json" is longer than "```", so it is not found there. */
  lemma ShortFenceKept()
    ensures RemoveAll(CodeFence, JsonFence) == CodeFence
  {
    RemoveAbsent(CodeFence, JsonFence);
  }

  /** Removing "```" from the body and the closing fence leaves the body. */
  lemma ClosingFenceRemoved(m: string)
    requires forall i :: 0 <= i < |m| ==> m[i] != Backtick
    ensures RemoveAll(m + CodeFence, CodeFence) == m
  {
    KeepsPlainText(m, CodeFence, CodeFence);
    LeadingMatchRemoved(CodeFence, []);
    assert CodeFence + [] == CodeFence;
    assert m + [] == m;
  }

  lemma StripPadding(w1: string, body: string, w2: string)
    requires AllSpace(w1) && AllSpace(w2)
    requires body == [] || (!IsSpace(body[0]) && !IsSpace(body[|body| - 1]))
    ensures Strip(w1 + body + w2) == body
  {
    assert w1 + body + w2 == w1 + (body + w2);
    StripLeftSkipsSpace(w1, body + w2);
    StripRightSkipsSpace(body, w2);
    if body == [] {
      assert body + w2 == w2 + [];
      StripLeftSkipsSpace(w2, []);
    } else {
      assert StripLeft(body + w2) == body + w2;
      assert StripRight(body) == body;
    }
  }

  /** A reply that wraps a JSON text in a "```json" fence, with whitespace inside
      the fence, is cleaned back to exactly that text, which is what reaches the
      decoder. */
  lemma UnwrapFencedReply(w1: string, body: string, w2: string, decode: string -> Option<Record>)
    requires AllSpace(w1) && AllSpace(w2)
    requires forall i :: 0 <= i < |body| ==> body[i] != Backtick
    requires body == [] || (!IsSpace(body[0]) && !IsSpace(body[|body| - 1]))
    ensures CleanReply(JsonFence + w1 + body + w2 + CodeFence) == body
    ensures ExtractReply(Some(JsonFence + w1 + body + w2 + CodeFence), decode) == decode(body)
  {
    var m := w1 + body + w2;
    PaddingHasNoBacktick(w1, body, w2);
    FencesRemoved(m);
    assert JsonFence + w1 + body + w2 + CodeFence == JsonFence + m + CodeFence;
    StripPadding(w1, body, w2);
  }

  /** The fence removal is blind to JSON syntax: a body whose text holds a
      "```" (inside a string value, say) does not survive the cleaning. */
  lemma InnerFenceIsLost(body: string)
    requires Contains(body, CodeFence)
    ensures CleanReply(JsonFence + body + CodeFence) != body
  {
    CleanReplyHasNoFence(JsonFence + body + CodeFence);
  }

  /** `{"a":"```"}` inside a "```json" fence is not recovered. */
  lemma InnerFenceExample()
    ensures CleanReply(JsonFence + "{\"a\":\"```\"}" + CodeFence) != "{\"a\":\"```\"}"
  {
    var body := "{\"a\":\"```\"}";
    assert body[6..6 + |CodeFence|] == CodeFence;
    ContainsAt(body, CodeFence, 6);
    InnerFenceIsLost(body);
  }
}

=== FILE: query.dfy ===
/** The query engine: a criteria dictionary with up to three optional filters,
    turned into AND-ed SQL conditions over `schedules`. */
module Query {

  import opened Wrappers
  import opened Text
  import opened Schedule

  const SecondsPerDay: int := 86400

  /** The criteria dictionary. `startTime` is the target date-time as seconds;
      only its calendar day matters. */
  datatype Criteria = Criteria(
    generalKeyword: Option<string>,
    startTime: Option<int>,
    reminderMinutes: Option<int>)

  /** The keyword and the date gate on truthiness (an empty keyword is no
      filter), the reminder offset on `is not None` (0 is a filter). */
  predicate KeywordActive(c: Criteria)
    ensures c.generalKeyword.None? || c.generalKeyword == Some("") ==> !KeywordActive(c)
  {
    c.generalKeyword.Some? && c.generalKeyword.value != ""
  }

  /** `if conditions:` — some filter is active. An offset of 0 still is one. */
  predicate HasFilter(c: Criteria)
    ensures c.reminderMinutes.Some? ==> HasFilter(c)
    ensures c.startTime.None? && c.reminderMinutes.None? && !KeywordActive(c) ==> !HasFilter(c)
  {
    KeywordActive(c) || c.startTime.Some? || c.reminderMinutes.Some?
  }

  /** Midnight of the day holding `t` (`datetime.combine(t.date(), time.min)`). */
  function DayStart(t: int): (d: int)
    ensures d <= t < d + SecondsPerDay
    ensures d % SecondsPerDay == 0
  {
    (t / SecondsPerDay) * SecondsPerDay
  }

  /** `column LIKE '%keyword%'`: NULL never matches. */
  predicate LikeKeyword(column: Option<string>, keyword: string)
    ensures column.None? ==> !LikeKeyword(column, keyword)
    ensures column.Some? && keyword == [] ==> LikeKeyword(column, keyword)
    ensures column.Some? && Contains(column.value, keyword) ==> LikeKeyword(column, keyword)
  {
    column.Some? && (ContainsFolded(column.value, keyword); Contains(Fold(column.value), Fold(keyword)))
  }

  /** SQLite's `datetime(column)` as seconds: NULL, or text it cannot read, is NULL. */
  function ColumnTime(column: Option<string>, sqlTime: string -> Option<int>): (t: Option<int>)
    ensures column.None? ==> t.None?
    ensures t.Some? ==> sqlTime(column.value) == t
  {
    if column.None? then None else sqlTime(column.value)
  }

  /** The row starts within `[day, day + 1 day)`. */
  predicate StartsOnDay(r: Row, day: int, sqlTime: string -> Option<int>)
  {
    var t := ColumnTime(r.event.startTime, sqlTime);
    t.Some? && day <= t.value < day + SecondsPerDay
  }

  /** What a matching row is: it satisfies every active filter. */
  predicate Matches(c: Criteria, r: Row, sqlTime: string -> Option<int>)
    ensures !HasFilter(c) ==> Matches(c, r, sqlTime)
    ensures Matches(c, r, sqlTime) && c.startTime.Some? ==> ColumnTime(r.event.startTime, sqlTime).Some?
    ensures Matches(c, r, sqlTime) && c.reminderMinutes.Some? ==> r.event.reminderMinutes.Some?
  {
    && (KeywordActive(c) ==>
          LikeKeyword(r.event.eventName, c.generalKeyword.value)
          || LikeKeyword(r.event.location, c.generalKeyword.value))
    && (c.startTime.Some? ==> StartsOnDay(r, DayStart(c.startTime.value), sqlTime))
    && (c.reminderMinutes.Some? ==> r.event.reminderMinutes == c.reminderMinutes)
  }

  /** One SQL fragment of the WHERE clause, with its bound parameter. */
  datatype Condition =
    | NameOrLocationLike(keyword: string)
    | StartAtLeast(bound: int)
    | StartBefore(bound: int)
    | ReminderIs(minutes: int)

  /** A comparison with NULL is never true: a start SQLite cannot read fails
      both time bounds, and a NULL offset fails `reminder_minutes = ?`. */
  predicate Holds(cond: Condition, r: Row, sqlTime: string -> Option<int>)
    ensures (cond.StartAtLeast? || cond.StartBefore?) && Holds(cond, r, sqlTime) ==>
      ColumnTime(r.event.startTime, sqlTime).Some?
    ensures cond.ReminderIs? && r.event.reminderMinutes.None? ==> !Holds(cond, r, sqlTime)
  {
    match cond
    case NameOrLocationLike(k) =>
      LikeKeyword(r.event.eventName, k) || LikeKeyword(r.event.location, k)
    case StartAtLeast(b) =>
      var t := ColumnTime(r.event.startTime, sqlTime); t.Some? && t.value >= b
    case StartBefore(b) =>
      var t := ColumnTime(r.event.startTime, sqlTime); t.Some? && t.value < b
    case ReminderIs(m) =>
      r.event.reminderMinutes == Some(m)
  }

  /** The conditions joined by AND. */
  predicate AllHold(conds: seq<Condition>, r: Row, sqlTime: string -> Option<int>)
  {
    forall i :: 0 <= i < |conds| ==> Holds(conds[i], r, sqlTime)
  }

  lemma AllHoldAppend(a: seq<Condition>, b: seq<Condition>, r: Row, sqlTime: string -> Option<int>)
    ensures AllHold(a + b, r, sqlTime) <==> AllHold(a, r, sqlTime) && AllHold(b, r, sqlTime)
  {
    if AllHold(a, r, sqlTime) && AllHold(b, r, sqlTime) {
      forall i | 0 <= i < |a + b| ensures Holds((a + b)[i], r, sqlTime) {
        if i >= |a| {
          assert (a + b)[i] == b[i - |a|];
        }
      }
    }
    if AllHold(a + b, r, sqlTime) {
      forall i | 0 <= i < |a| ensures Holds(a[i], r, sqlTime) {
        assert (a + b)[i] == a[i];
      }
      forall i | 0 <= i < |b| ensures Holds(b[i], r, sqlTime) {
        assert (a + b)[|a| + i] == b[i];
      }
    }
  }

  /** Builds the WHERE clause from the criteria, one optional filter at a time;
      no conditions at all exactly when no filter is active, and the conditions
      together mean what `Matches` says. */
  method BuildConditions(c: Criteria) returns (conds: seq<Condition>)
    ensures conds == [] <==> !HasFilter(c)
    ensures forall r: Row, sqlTime: string -> Option<int> ::
      AllHold(conds, r, sqlTime) <==> Matches(c, r, sqlTime)
  {
    conds := [];
    var keyword: seq<Condition> := [];
    if KeywordActive(c) {
      keyword := [NameOrLocationLike(c.generalKeyword.value)];
    }
    var day: seq<Condition> := [];
    if c.startTime.Some? {
      var startOfDay := DayStart(c.startTime.value);
      var endOfDay := startOfDay + SecondsPerDay;
      day := [StartAtLeast(startOfDay), StartBefore(endOfDay)];
    }
    var minutes: seq<Condition> := [];
    if c.reminderMinutes.Some? {
      minutes := [ReminderIs(c.reminderMinutes.value)];
    }
    conds := keyword + day + minutes;
    forall r: Row, sqlTime: string -> Option<int>
      ensures AllHold(conds, r, sqlTime) <==> Matches(c, r, sqlTime)
    {
      AllHoldAppend(keyword + day, minutes, r, sqlTime);
      AllHoldAppend(keyword, day, r, sqlTime);
      if KeywordActive(c) {
        assert AllHold(keyword, r, sqlTime) <==> Holds(keyword[0], r, sqlTime);
      }
      if c.reminderMinutes.Some? {
        assert AllHold(minutes, r, sqlTime) <==> Holds(minutes[0], r, sqlTime);
      }
      assert AllHold(keyword, r, sqlTime) <==> (KeywordActive(c) ==>
          LikeKeyword(r.event.eventName, c.generalKeyword.value)
          || LikeKeyword(r.event.location, c.generalKeyword.value));
      if c.startTime.Some? {
        assert AllHold(day, r, sqlTime) <==> Holds(day[0], r, sqlTime) && Holds(day[1], r, sqlTime);
      }
      assert AllHold(day, r, sqlTime) <==> (c.startTime.Some? ==> StartsOnDay(r, DayStart(c.startTime.value), sqlTime));
      assert AllHold(minutes, r, sqlTime) <==> (c.reminderMinutes.Some? ==> r.event.reminderMinutes == c.reminderMinutes);
    }
  }

  /** The rows that pass the WHERE clause, in table order. */
  function Where(rows: seq<Row>, conds: seq<Condition>, sqlTime: string -> Option<int>): (r: seq<Row>)
    ensures |r| <= |rows|
    ensures conds == [] ==> r == rows
  {
    if rows == [] then []
    else
      var last := rows[|rows| - 1];
      assert rows == rows[..|rows| - 1] + [last];
      Where(rows[..|rows| - 1], conds, sqlTime) + (if AllHold(conds, last, sqlTime) then [last] else [])
  }

  /** The rows that match the criteria, in table order. */
  function Matching(rows: seq<Row>, c: Criteria, sqlTime: string -> Option<int>): seq<Row>
  {
    if rows == [] then []
    else
      var last := rows[|rows| - 1];
      Matching(rows[..|rows| - 1], c, sqlTime) + (if Matches(c, last, sqlTime) then [last] else [])
  }

  /** A WHERE clause with the meaning of the criteria selects the matching rows. */
  lemma {:induction false} WhereIsMatching(rows: seq<Row>, conds: seq<Condition>, c: Criteria, sqlTime: string -> Option<int>)
    requires forall r: Row :: AllHold(conds, r, sqlTime) <==> Matches(c, r, sqlTime)
    ensures Where(rows, conds, sqlTime) == Matching(rows, c, sqlTime)
  {
    if rows != [] {
      WhereIsMatching(rows[..|rows| - 1], conds, c, sqlTime);
    }
  }

  /** A row is selected exactly when it is stored and satisfies every active filter. */
  lemma {:induction false} MatchingMembers(rows: seq<Row>, c: Criteria, sqlTime: string -> Option<int>, r: Row)
    ensures r in Matching(rows, c, sqlTime) <==> r in rows && Matches(c, r, sqlTime)
  {
    if rows != [] {
      var front := rows[..|rows| - 1];
      MatchingMembers(front, c, sqlTime, r);
      assert rows == front + [rows[|rows| - 1]];
    }
  }

  /** An empty keyword filters nothing out, unlike the reminder offset 0, which
      keeps only rows whose offset is exactly 0 (a NULL offset does not match). */
  lemma {:induction false} EmptyKeywordIsNoFilter(rows: seq<Row>, c: Criteria, sqlTime: string -> Option<int>)
    ensures Matching(rows, c.(generalKeyword := Some("")), sqlTime) == Matching(rows, c.(generalKeyword := None), sqlTime)
    ensures forall r :: Matches(Criteria(None, None, Some(0)), r, sqlTime) <==> r.event.reminderMinutes == Some(0)
  {
    if rows != [] {
      EmptyKeywordIsNoFilter(rows[..|rows| - 1], c, sqlTime);
    }
  }

  lemma GymRowMatches(sqlTime: string -> Option<int>)
    ensures Matches(Criteria(Some("gym"), None, None),
                    Row(1, Record(Some("Workout"), None, None, Some("City Gym"), None), "", false), sqlTime)
  {
    var folded, k := Fold("City Gym"), Fold("gym");
    assert folded[5..8] == k by {
      assert folded[5] == 'g' && folded[6] == 'y' && folded[7] == 'm';
      assert k[0] == 'g' && k[1] == 'y' && k[2] == 'm';
    }
    ContainsAt(folded, k, 5);
  }

  lemma OfficeRowDoesNotMatch(sqlTime: string -> Option<int>)
    ensures !Matches(Criteria(Some("gym"), None, None),
                     Row(2, Record(Some("Standup"), None, None, Some("Office"), None), "", false), sqlTime)
  {
    var k := Fold("gym");
    assert k[0] == 'g';
    var name, place := Fold("Standup"), Fold("Office");
    assert forall i :: 0 <= i < |name| ==> name[i] == FoldChar("Standup"[i]);
    assert forall i :: 0 <= i < |place| ==> place[i] == FoldChar("Office"[i]);
    LacksFirstChar(name, k);
    LacksFirstChar(place, k);
  }

  /** `general_keyword = "gym"` finds the event held at "City Gym" and not the
      "Standup" at the "Office". */
  lemma GymScenario(sqlTime: string -> Option<int>, gym: Row, office: Row)
    requires gym == Row(1, Record(Some("Workout"), None, None, Some("City Gym"), None), "", false)
    requires office == Row(2, Record(Some("Standup"), None, None, Some("Office"), None), "", false)
    ensures Matching([gym, office], Criteria(Some("gym"), None, None), sqlTime) == [gym]
  {
    GymRowMatches(sqlTime);
    OfficeRowDoesNotMatch(sqlTime);
    var c := Criteria(Some("gym"), None, None);
    var rows := [gym, office];
    assert rows[..|rows| - 1] == [gym];
    assert [gym][..0] == [];
    assert Matching([gym], c, sqlTime) == Matching([], c, sqlTime) + [gym];
    assert Matching(rows, c, sqlTime) == Matching([gym], c, sqlTime) + [];
  }
}

=== FILE: reminder.dfy ===
/** The reminder evaluator's rule: which rows fire at a given instant, and what
    flagging them does to the table. Times are seconds. */
module Reminder {

  import opened Wrappers
  import opened Schedule

  const SecondsPerMinute: int := 60

  /** The notification window is one minute wide, half open. */
  const WindowSeconds: int := 60

  /** `int(reminder_minutes or 0)`: NULL and 0 both mean "at start time". */
  function OffsetMinutes(m: Option<int>): (k: int)
    ensures m.None? || m == Some(0) ==> k == 0
    ensures m.Some? ==> k == m.value
  {
    if m.Some? then m.value else 0
  }

  /** The instant the reminder is due; None when `start_time` is NULL or does not
      parse, in which case the row is skipped. */
  function TriggerTime(r: Row, parse: string -> Option<int>): (t: Option<int>)
    ensures t.None? <==> r.event.startTime.None? || parse(r.event.startTime.value).None?
  {
    if r.event.startTime.None? then None
    else
      match parse(r.event.startTime.value)
      case None => None
      case Some(start) => Some(start - SecondsPerMinute * OffsetMinutes(r.event.reminderMinutes))
  }

  /** `trigger <= now < trigger + 1 minute`. */
  predicate Due(r: Row, now: int, parse: string -> Option<int>)
    ensures Due(r, now, parse) ==> TriggerTime(r, parse).Some?
  {
    var t := TriggerTime(r, parse);
    t.Some? && t.value <= now < t.value + WindowSeconds
  }

  /** A row is due at exactly the sixty instants of its trigger minute, so two
      checks a minute or more apart never both find it due. */
  lemma WindowIsOneMinute(r: Row, parse: string -> Option<int>, now: int, other: int)
    ensures Due(r, now, parse) && Due(r, other, parse) ==> -WindowSeconds < now - other < WindowSeconds
  {
  }

  /** `SELECT * FROM schedules WHERE is_reminded = 0`, in table order. */
  function Pending(rows: seq<Row>): (r: seq<Row>)
    ensures |r| <= |rows|
  {
    if rows == [] then []
    else
      var last := rows[|rows| - 1];
      Pending(rows[..|rows| - 1]) + (if last.isReminded then [] else [last])
  }

  /** Exactly the stored rows whose flag is clear are pending. */
  lemma {:induction false} PendingMembers(rows: seq<Row>, x: Row)
    ensures x in Pending(rows) <==> x in rows && !x.isReminded
  {
    if rows != [] {
      var front := rows[..|rows| - 1];
      PendingMembers(front, x);
      assert rows == front + [rows[|rows| - 1]];
    }
  }

  /** The rows of `pending` that fire at `now`, in scan order. */
  function Fire(pending: seq<Row>, now: int, parse: string -> Option<int>): (r: seq<Row>)
    ensures |r| <= |pending|
  {
    if pending == [] then []
    else
      var last := pending[|pending| - 1];
      Fire(pending[..|pending| - 1], now, parse) + (if Due(last, now, parse) then [last] else [])
  }

  /** Exactly the scanned rows that are due fire. */
  lemma {:induction false} FireMembers(pending: seq<Row>, now: int, parse: string -> Option<int>, x: Row)
    ensures x in Fire(pending, now, parse) <==> x in pending && Due(x, now, parse)
  {
    if pending != [] {
      var front := pending[..|pending| - 1];
      FireMembers(front, now, parse, x);
      assert pending == front + [pending[|pending| - 1]];
    }
  }

  /** One more row scanned adds it to the fired rows exactly when it is due. */
  lemma FireExtend(pending: seq<Row>, i: nat, now: int, parse: string -> Option<int>)
    requires i < |pending|
    ensures Fire(pending[..i + 1], now, parse) ==
      Fire(pending[..i], now, parse) + (if Due(pending[i], now, parse) then [pending[i]] else [])
  {
    assert pending[..i + 1][..i] == pending[..i];
  }

  function Ids(rows: seq<Row>): set<int>
  {
    set r | r in rows :: r.id
  }

  /** `UPDATE schedules SET is_reminded = 1 WHERE id IN ids`: only the flag
      changes, and only from 0 to 1. */
  function Flag(rows: seq<Row>, ids: set<int>): (r: seq<Row>)
    ensures |r| == |rows|
    ensures forall i :: 0 <= i < |rows| ==> r[i].(isReminded := rows[i].isReminded) == rows[i]
    ensures forall i :: 0 <= i < |rows| ==> (r[i].isReminded <==> rows[i].isReminded || rows[i].id in ids)
  {
    seq(|rows|, i requires 0 <= i < |rows| =>
      if rows[i].id in ids then rows[i].(isReminded := true) else rows[i])
  }

  lemma FlagTwice(rows: seq<Row>, a: set<int>, b: set<int>)
    ensures Flag(Flag(rows, a), b) == Flag(rows, a + b)
  {
  }

  /** A row fires exactly when it is stored, not yet reminded, its `start_time`
      parses to `start`, and `now` lies in the minute that begins
      `reminder_minutes` (NULL read as 0) before `start`. */
  lemma FiresIffInWindow(rows: seq<Row>, now: int, parse: string -> Option<int>, r: Row)
    ensures r in Fire(Pending(rows), now, parse) <==>
      && r in rows
      && !r.isReminded
      && r.event.startTime.Some?
      && parse(r.event.startTime.value).Some?
      && var trigger := parse(r.event.startTime.value).value - SecondsPerMinute * OffsetMinutes(r.event.reminderMinutes);
         trigger <= now < trigger + WindowSeconds
  {
    FireMembers(Pending(rows), now, parse, r);
    PendingMembers(rows, r);
  }

  /** After the flags are set, no fired row is pending again, so none of them
      fires again, whenever the evaluator runs next and however the start times
      read then. */
  lemma FiredRowsNeverFireAgain(rows: seq<Row>, now: int, later: int, parse: string -> Option<int>, laterParse: string -> Option<int>)
    ensures var fired := Fire(Pending(rows), now, parse);
            forall x :: x in Fire(Pending(Flag(rows, Ids(fired))), later, laterParse) ==> x.id !in Ids(fired)
  {
    var fired := Fire(Pending(rows), now, parse);
    var flagged := Flag(rows, Ids(fired));
    forall x | x in Fire(Pending(flagged), later, laterParse) ensures x.id !in Ids(fired) {
      FireMembers(Pending(flagged), later, laterParse, x);
      PendingMembers(flagged, x);
      var i :| 0 <= i < |flagged| && flagged[i] == x;
      assert !(rows[i].id in Ids(fired));
    }
  }

  /** A second scan at the same instant fires nothing. */
  lemma SecondScanFiresNothing(rows: seq<Row>, now: int, parse: string -> Option<int>)
    ensures var fired := Fire(Pending(rows), now, parse);
            Fire(Pending(Flag(rows, Ids(fired))), now, parse) == []
  {
    var fired := Fire(Pending(rows), now, parse);
    var flagged := Flag(rows, Ids(fired));
    var again := Fire(Pending(flagged), now, parse);
    if again != [] {
      var x := again[0];
      FireMembers(Pending(flagged), now, parse, x);
      PendingMembers(flagged, x);
      var i :| 0 <= i < |flagged| && flagged[i] == x;
      FireMembers(Pending(rows), now, parse, rows[i]);
      PendingMembers(rows, rows[i]);
      assert false;
    }
  }

  /** A row whose `start_time` does not parse is skipped: it does not fire and
      its row, flag included, is left as it was. */
  lemma UnparsableRowUntouched(rows: seq<Row>, now: int, parse: string -> Option<int>, k: nat)
    requires UniqueIds(rows)
    requires k < |rows| && TriggerTime(rows[k], parse).None?
    ensures var fired := Fire(Pending(rows), now, parse);
            rows[k] !in fired && Flag(rows, Ids(fired))[k] == rows[k]
  {
    var fired := Fire(Pending(rows), now, parse);
    FireMembers(Pending(rows), now, parse, rows[k]);
    if rows[k].id in Ids(fired) {
      var y :| y in fired && y.id == rows[k].id;
      FireMembers(Pending(rows), now, parse, y);
      PendingMembers(rows, y);
      var j :| 0 <= j < |rows| && rows[j] == y;
      assert false;
    }
  }

  /** A meeting at `start` with a 20-minute reminder fires for a check 30 seconds
      into its trigger minute, not for a second check in that minute, and not for
      a check one minute later. */
  lemma MeetingScenario(parse: string -> Option<int>, start: int, meeting: Row)
    requires parse("2024-01-01 10:00:00") == Some(start)
    requires meeting == Row(1, Record(Some("Meeting"), Some("2024-01-01 10:00:00"), None, None, Some(20)), "", false)
    ensures Fire(Pending([meeting]), start - 20 * 60 + 30, parse) == [meeting]
    ensures Fire(Pending(Flag([meeting], {1})), start - 20 * 60 + 30, parse) == []
    ensures Fire(Pending(Flag([meeting], {1})), start - 20 * 60 + 90, parse) == []
    ensures Fire(Pending([meeting]), start - 20 * 60 + 90, parse) == []
  {
    assert [meeting][..0] == [];
    assert Pending([meeting]) == Pending([]) + [meeting];
    assert TriggerTime(meeting, parse) == Some(start - 20 * 60);
    assert Due(meeting, start - 20 * 60 + 30, parse);
    assert !Due(meeting, start - 20 * 60 + 90, parse);
    assert Fire([meeting], start - 20 * 60 + 30, parse) == Fire([], start - 20 * 60 + 30, parse) + [meeting];
    assert Fire([meeting], start - 20 * 60 + 90, parse) == Fire([], start - 20 * 60 + 90, parse) + [];
    var flagged := meeting.(isReminded := true);
    assert Flag([meeting], {1}) == [flagged];
    assert [flagged][..0] == [];
    assert Pending([flagged]) == Pending([]) + [];
  }
}

=== FILE: schedule.dfy ===
/** The `schedules` table's rows and the order `ORDER BY start_time DESC`
    puts them in. */
module Schedule {

  import opened Wrappers
  import opened Text

  /** What the extraction hands over and what an edit writes: the five data
      columns as `dict.get` returns them, so every one may be missing (NULL). */
  datatype Record = Record(
    eventName: Option<string>,
    startTime: Option<string>,
    endTime: Option<string>,
    location: Option<string>,
    reminderMinutes: Option<int>)

  /** One row of `schedules`. `startTime` stays text, as the column does;
      `isReminded` is the 0/1 column. */
  datatype Row = Row(id: int, event: Record, preprocessedText: string, isReminded: bool)

  /** SQLite's ascending order on the `start_time` column: NULL first, then text
      in BINARY collation. */
  predicate StartLe(a: Option<string>, b: Option<string>)
    ensures a.None? ==> StartLe(a, b)
    ensures a.Some? && b.None? ==> !StartLe(a, b)
    ensures a.Some? && b.Some? && IsPrefix(a.value, b.value) ==> StartLe(a, b)
  {
    a.None? || (b.Some? && LexLe(a.value, b.value))
  }

  lemma StartLeTotal(a: Option<string>, b: Option<string>)
    ensures StartLe(a, b) || StartLe(b, a)
  {
    if a.Some? && b.Some? {
      LexLeTotal(a.value, b.value);
    }
  }

  lemma StartLeTransitive(a: Option<string>, b: Option<string>, c: Option<string>)
    requires StartLe(a, b) && StartLe(b, c)
    ensures StartLe(a, c)
  {
    if a.Some? {
      LexLeTransitive(a.value, b.value, c.value);
    }
  }

  /** Two starts that each sort at or before the other are the same value. */
  lemma StartLeAntisymmetric(a: Option<string>, b: Option<string>)
    requires StartLe(a, b) && StartLe(b, a)
    ensures a == b
  {
    if a.Some? {
      LexLeAntisymmetric(a.value, b.value);
    }
  }

  /** No two rows share an id. */
  predicate UniqueIds(rows: seq<Row>)
  {
    forall i, j :: 0 <= i < j < |rows| ==> rows[i].id != rows[j].id
  }

  /** Latest `start_time` first. */
  predicate SortedDesc(s: seq<Row>)
  {
    forall i, j :: 0 <= i < j < |s| ==> StartLe(s[j].event.startTime, s[i].event.startTime)
  }

  lemma PrependLatest(s: seq<Row>, x: Row)
    requires SortedDesc(s) && s != []
    requires StartLe(s[0].event.startTime, x.event.startTime)
    ensures SortedDesc([x] + s)
  {
    forall j | 0 <= j < |s| ensures StartLe(s[j].event.startTime, x.event.startTime) {
      if j > 0 {
        StartLeTransitive(s[j].event.startTime, s[0].event.startTime, x.event.startTime);
      }
    }
    var r := [x] + s;
    forall i, j | 0 <= i < j < |r| ensures StartLe(r[j].event.startTime, r[i].event.startTime) {
      assert r[j] == s[j - 1];
      if i > 0 {
        assert r[i] == s[i - 1];
      }
    }
  }

  lemma PrependHead(s: seq<Row>, x: Row, t: seq<Row>)
    requires SortedDesc(s) && s != []
    requires !StartLe(s[0].event.startTime, x.event.startTime)
    requires SortedDesc(t) && multiset(t) == multiset(s[1..]) + multiset{x}
    ensures SortedDesc([s[0]] + t)
  {
    StartLeTotal(s[0].event.startTime, x.event.startTime);
    forall j | 0 <= j < |t| ensures StartLe(t[j].event.startTime, s[0].event.startTime) {
      assert t[j] in multiset(t);
      if t[j] != x {
        assert t[j] in multiset(s[1..]);
        var k :| 0 <= k < |s[1..]| && s[1..][k] == t[j];
        assert s[k + 1] == t[j];
      }
    }
    var r := [s[0]] + t;
    forall i, j | 0 <= i < j < |r| ensures StartLe(r[j].event.startTime, r[i].event.startTime) {
      assert r[j] == t[j - 1];
      if i > 0 {
        assert r[i] == t[i - 1];
      }
    }
  }

  /** Puts `x` in front of the first row that does not sort after it. */
  function InsertDesc(s: seq<Row>, x: Row): (r: seq<Row>)
    requires SortedDesc(s)
    ensures SortedDesc(r)
    ensures multiset(r) == multiset(s) + multiset{x}
  {
    if s == [] then [x]
    else if StartLe(s[0].event.startTime, x.event.startTime) then
      PrependLatest(s, x);
      [x] + s
    else
      var t := InsertDesc(s[1..], x);
      assert s == [s[0]] + s[1..];
      PrependHead(s, x, t);
      [s[0]] + t
  }

  /** The order `ORDER BY start_time DESC` returns the rows in. Rows with equal
      `start_time` come out in some order; the contract fixes only the ordering
      and the contents. */
  function SortDesc(s: seq<Row>): (r: seq<Row>)
    ensures SortedDesc(r)
    ensures multiset(r) == multiset(s)
  {
    if s == [] then []
    else
      assert s == s[..|s| - 1] + [s[|s| - 1]];
      InsertDesc(SortDesc(s[..|s| - 1]), s[|s| - 1])
  }
}

=== FILE: store.dfy ===
/** The `schedules` table as one object whose operations change it in place:
    the store operations, the full load, the criteria query and the reminder check. */
module Store {

  import opened Wrappers
  import opened Schedule
  import opened Table
  import opened Query
  import opened Reminder

  class EventStore {
    /** The table in rowid order. */
    var rows: seq<Row>
    /** The AUTOINCREMENT counter: the id the next insert gets. */
    var nextId: int

    /** Rows in rowid order, every id taken from the counter: ids are unique
        and the counter's next id is unused. */
    ghost predicate Valid()
      reads this
      ensures Valid() ==> UniqueIds(rows)
      ensures Valid() ==> Find(rows, nextId).None?
    {
      && nextId >= 1
      && IdsAscending(rows)
      && forall i :: 0 <= i < |rows| ==> 1 <= rows[i].id < nextId
    }

    /** `init_db` on a fresh database: the table exists and is empty. */
    constructor ()
      ensures Valid() && rows == [] && nextId == 1
    {
      rows := [];
      nextId := 1;
    }

    /** `save_schedule_to_db`: one new row with an unused id, the record's
        fields, the user's text and the flag cleared. */
    method Save(data: Record, text: string) returns (ok: bool)
      requires Valid()
      modifies this
      ensures Valid() && ok
      ensures Find(old(rows), old(nextId)).None?
      ensures rows == old(rows) + [Row(old(nextId), data, text, false)]
      ensures Find(rows, old(nextId)) == Some(Row(old(nextId), data, text, false))
      ensures forall id :: id != old(nextId) ==> Find(rows, id) == Find(old(rows), id)
      ensures nextId == old(nextId) + 1
    {
      var row := Row(nextId, data, text, false);
      forall id | id != nextId ensures Find(rows + [row], id) == Find(rows, id) {
        FindAppended(rows, row, id);
      }
      FindAppended(rows, row, nextId);
      rows := rows + [row];
      nextId := nextId + 1;
      ok := true;
    }

    /** `update_schedule`: every data field of the row with that id is replaced
        and its flag cleared; no other row changes; it reports success even when
        no row has that id, and then nothing changes. */
    method Update(id: int, data: Record, text: string) returns (ok: bool)
      requires Valid()
      modifies this
      ensures Valid() && ok
      ensures rows == Updated(old(rows), id, data, text)
      ensures Find(rows, id) == if Find(old(rows), id).Some? then Some(Row(id, data, text, false)) else None
      ensures forall other :: other != id ==> Find(rows, other) == Find(old(rows), other)
      ensures Find(old(rows), id).None? ==> rows == old(rows)
      ensures nextId == old(nextId)
    {
      forall other ensures other != id ==> Find(Updated(rows, id, data, text), other) == Find(rows, other) {
        UpdatedEffect(rows, id, data, text, other);
      }
      UpdatedEffect(rows, id, data, text, id);
      rows := Updated(rows, id, data, text);
      ok := true;
    }

    /** `delete_schedule`: the row with that id is gone, every other row stays;
        it reports success even when no row has that id, and then nothing
        changes. The id is not handed out again. */
    method Delete(id: int) returns (ok: bool)
      requires Valid()
      modifies this
      ensures Valid() && ok
      ensures rows == Without(old(rows), id)
      ensures Find(rows, id).None?
      ensures forall other :: other != id ==> Find(rows, other) == Find(old(rows), other)
      ensures Find(old(rows), id).None? ==> rows == old(rows)
      ensures |rows| == if Find(old(rows), id).Some? then |old(rows)| - 1 else |old(rows)|
      ensures nextId == old(nextId)
    {
      forall other ensures other != id ==> Find(Without(rows, id), other) == Find(rows, other) {
        WithoutEffect(rows, id, other);
      }
      WithoutEffect(rows, id, id);
      WithoutKeepsOrder(rows, id);
      var kept := Without(rows, id);
      forall k | 0 <= k < |kept| ensures 1 <= kept[k].id < nextId {
        WithoutMembers(rows, id, kept[k]);
      }
      rows := Without(rows, id);
      ok := true;
    }

    /** `load_all_schedules`: every row, latest `start_time` first. */
    method LoadAll() returns (all: seq<Row>)
      ensures SortedDesc(all)
      ensures multiset(all) == multiset(rows)
    {
      all := SortDesc(rows);
    }

    /** `query_events_from_db`: nothing when no filter is active; otherwise the
        rows satisfying every active filter, each once, latest `start_time` first. */
    method QueryEvents(c: Criteria, sqlTime: string -> Option<int>) returns (result: seq<Row>)
      ensures !HasFilter(c) ==> result == []
      ensures HasFilter(c) ==> multiset(result) == multiset(Matching(rows, c, sqlTime))
      ensures SortedDesc(result)
      ensures forall r :: r in result <==> HasFilter(c) && r in rows && Matches(c, r, sqlTime)
    {
      var conds := BuildConditions(c);
      if conds == [] {
        return [];
      }
      WhereIsMatching(rows, conds, c, sqlTime);
      result := SortDesc(Where(rows, conds, sqlTime));
      forall r ensures r in result <==> r in rows && Matches(c, r, sqlTime) {
        MatchingMembers(rows, c, sqlTime, r);
        assert r in result <==> r in multiset(result);
        assert r in Matching(rows, c, sqlTime) <==> r in multiset(Matching(rows, c, sqlTime));
      }
    }

    /** `check_reminders_now`: one pass over the rows not yet reminded, all
        judged against the same `now`; a row whose start does not parse is
        skipped; a row whose one-minute window holds `now` is collected and
        flagged in the same step. */
    method CheckReminders(now: int, parse: string -> Option<int>) returns (events: seq<Row>)
      requires Valid()
      modifies this
      ensures Valid()
      ensures events == Fire(Pending(old(rows)), now, parse)
      ensures rows == Flag(old(rows), Ids(events))
      ensures forall k :: 0 <= k < |old(rows)| && TriggerTime(old(rows)[k], parse).None? ==>
        old(rows)[k] !in events && rows[k] == old(rows)[k]
      ensures nextId == old(nextId)
    {
      var pending := Pending(rows);
      events := [];
      var i := 0;
      while i < |pending|
        invariant 0 <= i <= |pending|
        invariant events == Fire(pending[..i], now, parse)
        invariant rows == Flag(old(rows), Ids(events))
        invariant nextId == old(nextId)
        invariant Valid()
      {
        var row := pending[i];
        FireExtend(pending, i, now, parse);
        match TriggerTime(row, parse) {
          case None =>
            // the start time does not parse: skip the row, flag unchanged
          case Some(trigger) =>
            if trigger <= now < trigger + WindowSeconds {
              FlagTwice(old(rows), Ids(events), {row.id});
              assert Ids(events + [row]) == Ids(events) + {row.id};
              events := events + [row];
              rows := Flag(rows, {row.id});
            }
        }
        i := i + 1;
      }
      assert pending[..i] == pending;
      forall k | 0 <= k < |old(rows)| && TriggerTime(old(rows)[k], parse).None?
        ensures old(rows)[k] !in events && rows[k] == old(rows)[k]
      {
        UnparsableRowUntouched(old(rows), now, parse, k);
      }
    }
  }
}

=== FILE: table.dfy ===
/** The row-level effect of the store's INSERT, UPDATE and DELETE statements,
    and the lookup by id that says what each of them changes. */
module Table {

  import opened Wrappers
  import opened Schedule

  /** Rows are kept in rowid order, and rowids never repeat. */
  predicate IdsAscending(rows: seq<Row>)
    ensures IdsAscending(rows) ==> UniqueIds(rows)
  {
    forall i, j :: 0 <= i < j < |rows| ==> rows[i].id < rows[j].id
  }

  /** `SELECT * FROM schedules WHERE id = ?` */
  function Find(rows: seq<Row>, id: int): (r: Option<Row>)
    ensures r.Some? ==> r.value in rows && r.value.id == id
  {
    if rows == [] then None
    else if rows[0].id == id then Some(rows[0])
    else Find(rows[1..], id)
  }

  /** A lookup that finds nothing means no row has that id; the converse is
      `Find`'s own postcondition. */
  lemma {:induction false} FindMissing(rows: seq<Row>, id: int, x: Row)
    ensures Find(rows, id).None? && x in rows ==> x.id != id
  {
    if rows != [] && rows[0].id != id && x != rows[0] {
      FindMissing(rows[1..], id, x);
    }
  }

  /** `UPDATE schedules SET <all six data columns>, is_reminded = 0 WHERE id = ?` */
  function Updated(rows: seq<Row>, id: int, data: Record, text: string): (r: seq<Row>)
    ensures |r| == |rows|
    ensures forall i :: 0 <= i < |rows| ==> r[i].id == rows[i].id
  {
    seq(|rows|, i requires 0 <= i < |rows| =>
      if rows[i].id == id then Row(id, data, text, false) else rows[i])
  }

  /** `DELETE FROM schedules WHERE id = ?` */
  function Without(rows: seq<Row>, id: int): (r: seq<Row>)
    ensures |r| <= |rows|
  {
    if rows == [] then []
    else (if rows[0].id == id then [] else [rows[0]]) + Without(rows[1..], id)
  }

  /** A row survives the delete exactly when it was stored under another id. */
  lemma {:induction false} WithoutMembers(rows: seq<Row>, id: int, x: Row)
    ensures x in Without(rows, id) <==> x in rows && x.id != id
  {
    if rows != [] {
      WithoutMembers(rows[1..], id, x);
      assert rows == [rows[0]] + rows[1..];
    }
  }

  /** An inserted row with an unused id is found under that id, and every other
      id finds what it found before. */
  lemma {:induction false} FindAppended(rows: seq<Row>, x: Row, other: int)
    requires forall r :: r in rows ==> r.id != x.id
    ensures Find(rows + [x], x.id) == Some(x)
    ensures other != x.id ==> Find(rows + [x], other) == Find(rows, other)
  {
    if rows == [] {
      assert rows + [x] == [x];
    } else {
      assert (rows + [x])[1..] == rows[1..] + [x];
      FindAppended(rows[1..], x, other);
    }
  }

  /** An update rewrites the row with that id, clearing its reminded flag, leaves
      every other id alone, and changes nothing when no row has that id. */
  lemma {:induction false} UpdatedEffect(rows: seq<Row>, id: int, data: Record, text: string, other: int)
    ensures Find(Updated(rows, id, data, text), id) ==
      if Find(rows, id).Some? then Some(Row(id, data, text, false)) else None
    ensures other != id ==> Find(Updated(rows, id, data, text), other) == Find(rows, other)
    ensures Find(rows, id).None? ==> Updated(rows, id, data, text) == rows
  {
    if rows != [] {
      UpdatedEffect(rows[1..], id, data, text, other);
      assert Updated(rows, id, data, text)[1..] == Updated(rows[1..], id, data, text);
      if Find(rows, id).None? {
        assert Updated(rows, id, data, text) == [rows[0]] + Updated(rows[1..], id, data, text);
        assert rows == [rows[0]] + rows[1..];
      }
    }
  }

  /** A delete removes the row with that id and no other, and changes nothing
      when no row has that id. */
  lemma {:induction false} WithoutEffect(rows: seq<Row>, id: int, other: int)
    ensures Find(Without(rows, id), id).None?
    ensures other != id ==> Find(Without(rows, id), other) == Find(rows, other)
    ensures Find(rows, id).None? ==> Without(rows, id) == rows
  {
    if rows != [] {
      WithoutEffect(rows[1..], id, other);
      if rows[0].id == id {
        assert Without(rows, id) == Without(rows[1..], id);
      } else {
        assert Without(rows, id) == [rows[0]] + Without(rows[1..], id);
        assert rows == [rows[0]] + rows[1..];
      }
    }
  }

  /** Deleting keeps the rows in rowid order and removes exactly one row when the
      id is present. */
  lemma {:induction false} WithoutKeepsOrder(rows: seq<Row>, id: int)
    requires IdsAscending(rows)
    ensures IdsAscending(Without(rows, id))
    ensures |Without(rows, id)| == if Find(rows, id).Some? then |rows| - 1 else |rows|
  {
    if rows != [] {
      var tail := rows[1..];
      WithoutKeepsOrder(tail, id);
      var rest := Without(tail, id);
      if rows[0].id != id {
        forall k | 0 <= k < |rest| ensures rows[0].id < rest[k].id {
          WithoutMembers(tail, id, rest[k]);
        }
        assert Without(rows, id) == [rows[0]] + rest;
      } else {
        assert Find(tail, id).None?;
      }
    }
  }
}

=== FILE: text.dfy ===
/** Character-level text helpers shared by the query engine (keyword search,
    text ordering) and by the cleaning of the model's reply. */
module Text {

  /** `p` is a prefix of `s`. */
  predicate IsPrefix(p: string, s: string)
  {
    |p| <= |s| && s[..|p|] == p
  }

  /** `p` occurs in `s` as a contiguous run of characters (the empty string
      occurs everywhere). */
  predicate Contains(s: string, p: string)
    decreases |s|
  {
    IsPrefix(p, s) || (s != [] && Contains(s[1..], p))
  }

  /** A run of `p` starting at index `i` of `s` is an occurrence. */
  lemma {:induction false} ContainsAt(s: string, p: string, i: nat)
    requires i + |p| <= |s| && s[i..i + |p|] == p
    ensures Contains(s, p)
    decreases i
  {
    if i > 0 {
      assert s[1..][i - 1..i - 1 + |p|] == s[i..i + |p|];
      ContainsAt(s[1..], p, i - 1);
    } else {
      assert s[..|p|] == s[0..0 + |p|];
    }
  }

  /** Text without the first character of `p` cannot contain `p`. */
  lemma {:induction false} LacksFirstChar(s: string, p: string)
    requires p != []
    requires forall i :: 0 <= i < |s| ==> s[i] != p[0]
    ensures !Contains(s, p)
  {
    if s != [] {
      assert !IsPrefix(p, s) by {
        if |p| <= |s| {
          assert s[..|p|][0] == s[0];
        }
      }
      LacksFirstChar(s[1..], p);
    }
  }

  /** A run found in a slice of `s` is also a run of `s`. */
  lemma {:induction false} ContainsSlice(s: string, p: string, lo: nat, hi: nat)
    requires lo <= hi <= |s|
    requires Contains(s[lo..hi], p)
    ensures Contains(s, p)
    decreases hi - lo
  {
    var t := s[lo..hi];
    if IsPrefix(p, t) {
      assert s[lo..lo + |p|] == t[..|p|];
      ContainsAt(s, p, lo);
    } else {
      assert t[1..] == s[lo + 1..hi];
      ContainsSlice(s, p, lo + 1, hi);
    }
  }

  /** SQLite's default `LIKE` folds the 26 ASCII capitals and nothing else. */
  function FoldChar(c: char): (d: char)
    ensures 'A' <= c <= 'Z' ==> 'a' <= d <= 'z'
    ensures !('A' <= c <= 'Z') ==> d == c
  {
    if 'A' <= c <= 'Z' then (c as int + 32) as char else c
  }

  function Fold(s: string): (r: string)
    ensures |r| == |s|
    ensures forall i :: 0 <= i < |s| ==> r[i] == FoldChar(s[i])
  {
    seq(|s|, i requires 0 <= i < |s| => FoldChar(s[i]))
  }

  /** Folding both texts keeps every occurrence, so a case-sensitive match is
      also a match after folding. */
  lemma {:induction false} ContainsFolded(s: string, p: string)
    ensures Contains(s, p) ==> Contains(Fold(s), Fold(p))
    decreases |s|
  {
    if IsPrefix(p, s) {
      assert Fold(s)[..|p|] == Fold(p);
    } else if s != [] {
      ContainsFolded(s[1..], p);
      assert Fold(s)[1..] == Fold(s[1..]);
    }
  }

  /** `a` sorts at or before `b` when text is compared character by character
      on code points (SQLite's BINARY collation on UTF-8 text); a proper prefix
      sorts first. */
  predicate LexLe(a: string, b: string)
    ensures IsPrefix(a, b) ==> LexLe(a, b)
    ensures a != [] && b != [] && a[0] < b[0] ==> LexLe(a, b)
    ensures a != [] && b != [] && b[0] < a[0] ==> !LexLe(a, b)
    decreases |a|
  {
    a == [] || (b != [] && (a[0] < b[0] || (a[0] == b[0] && LexLe(a[1..], b[1..]))))
  }

  lemma {:induction false} LexLeTotal(a: string, b: string)
    ensures LexLe(a, b) || LexLe(b, a)
    decreases |a|
  {
    if a != [] && b != [] && a[0] == b[0] {
      LexLeTotal(a[1..], b[1..]);
    }
  }

  lemma {:induction false} LexLeTransitive(a: string, b: string, c: string)
    requires LexLe(a, b) && LexLe(b, c)
    ensures LexLe(a, c)
    decreases |a|
  {
    if a != [] && a[0] == b[0] && b[0] == c[0] {
      LexLeTransitive(a[1..], b[1..], c[1..]);
    }
  }

  lemma {:induction false} LexLeAntisymmetric(a: string, b: string)
    requires LexLe(a, b) && LexLe(b, a)
    ensures a == b
    decreases |a|
  {
    if a != [] {
      LexLeAntisymmetric(a[1..], b[1..]);
      assert a == [a[0]] + a[1..] && b == [b[0]] + b[1..];
    }
  }
}

=== FILE: wrappers.dfy ===
/** The optional value used for nullable columns, absent dictionary keys and
    operations that can fail without saying why. */
module Wrappers {

  datatype Option<+T> = None | Some(value: T)

}
